=== FILE: README.md ===
# ConneX sample scripts: session gating and paged queries, in Dafny

This project models the two pieces of real logic in the ConneX API Python
samples and proves properties about them.

- **The MQTT command script** (`src/mqtt/ConneXMqttCmd.py`) keeps two globals,
  `connected` and `sessionid`. `sessionid` starts as the placeholder
  `"Undefined"`. `on_message` learns the session id from any topic that
  contains `startup`; the id is segment 3 of the topic split on `/`.
  Machine-manager commands always publish to their fixed topic. Automated-handler
  commands publish only once a session id is known, and then to `topic/<sessionid>`.
  In the model, the callbacks are `MqttCmd.Event`s and the globals are an
  immutable `MqttCmd.Session`. A run is a fold of `MqttCmd.Step` over the
  events, and it records each event's effects: subscriptions, publishes with
  their outcome, and the informational outcomes the script logs.
- **The GraphQL script** (`src/graphql/ConneXGraphQL.py`) pages through MQTT
  messages with `take:50` and a `skip` that grows by 50 on every iteration.
  It prints the total count from the first response and every message as
  `timestamp | topic | payload`. It stops after the first page that reports
  no next page. In the model, the server is the sequence of its responses,
  indexed by request number. `Paging.MessagesQuery` is the loop, written as a
  method whose invariants tie it to a closed-form description of the run.
  The same script prints CSV rows for handlers, programmers and adapters, and
  a statistics row per adapter, where a failing per-adapter query falls back
  to printing the identifier alone. These are modelled in `Rows`.

Files: `wrappers.dfy` (optional values), `text.dfy` (Python's substring test,
`str.split`, joins and `str(int)`), `mqtt_cmd.dfy`, `graphql_paging.dfy`,
`graphql_rows.dfy`.

The model follows the code as written:
- The code never resets `connected`. `on_disconnect` only logs.
- The code reads segment 3 with no bounds check.
- The paging loop advances `skip` by 50 whatever the page held, and prints every item of every page it receives.

## Model

| member | source | states |
|---|---|---|
| Text.ContainsIffOccurs | src/mqtt/ConneXMqttCmd.py:109 | The `"startup" in topic` test holds exactly when the marker occurs as a contiguous substring at some position. It is a substring test, not a segment match. |
| Text.Split | src/mqtt/ConneXMqttCmd.py:110 | `topic.split("/")` always yields at least one segment. No segment contains `/`. Joining the segments with `/` gives back the topic. |
| Text.SplitJoin | src/graphql/ConneXGraphQL.py:103-107 | Fields that hold no separator, once joined with it, split back into exactly those fields. |
| Text.SplitFour | src/mqtt/ConneXMqttCmd.py:110 | A topic of four `/`-free segments splits back into exactly those four, so segment 3 is the last one. |
| Text.EndsWithSegment | src/mqtt/ConneXMqttCmd.py:151 | `topic + "/" + last` ends with `"/" + x` exactly when `last == x`, for `/`-free `last` and `x`. |
| Text.DecimalString | src/graphql/ConneXGraphQL.py:61 | `str(n)` for an integer: a non-negative `n` prints as digits only, and they read back as `n`. A negative `n` prints as a minus sign followed by digits that read back as `-n`. The text never holds a comma. |
| Text.NatDigitsRoundTrip | src/graphql/ConneXGraphQL.py:61 | Reading the printed digits of a non-negative id back gives the id. |
| MqttCmd.OnConnect | src/mqtt/ConneXMqttCmd.py:89-102 | The session id is kept. `connected` becomes the old value or `rc == 0`. A subscription to `#` is made exactly when `rc == 0`. A refused connection changes nothing. |
| MqttCmd.OnMessage | src/mqtt/ConneXMqttCmd.py:105-111 | The message is logged first. `connected` is kept. A topic that names a session sets the id to segment 3 of the topic split on `/`. Any other topic leaves the session as it was. |
| MqttCmd.Publish | src/mqtt/ConneXMqttCmd.py:132-137 | The publish goes to the given topic with the payload unchanged. It is logged as accepted exactly when the return code is 0. |
| MqttCmd.OnHandlerCommand | src/mqtt/ConneXMqttCmd.py:145-151 | The session is never modified. The command is rejected exactly when the session id is `Undefined`. Otherwise there is one publish, to `topic + "/" + sessionid`. |
| MqttCmd.Step | src/mqtt/ConneXMqttCmd.py:89-151 | Only a message can change the session id, and only a connection can change `connected`. A `/`-free session id stays `/`-free. Every callback has at least one effect. |
| MqttCmd.Run | src/mqtt/ConneXMqttCmd.py:75-151 | A run has one list of effects per callback. It keeps a `/`-free session id `/`-free. A run without messages keeps the session id. |
| MqttCmd.ExtractSessionId | src/mqtt/ConneXMqttCmd.py:109-110 | A topic is "not startup" exactly when the marker occurs nowhere in it. An extracted session id never contains `/`. |
| MqttCmd.MessageUpdatesSession | src/mqtt/ConneXMqttCmd.py:105-111 | Every message is logged first. A topic with the marker and at least four segments sets the session id to segment 3. A topic without the marker, or with fewer than four segments, leaves the session unchanged. `connected` never changes. |
| MqttCmd.ConnectSubscribesOnlyOnSuccess | src/mqtt/ConneXMqttCmd.py:89-102 | A subscription to `#` happens exactly when `rc == 0`, and no other filter is subscribed. Afterwards `connected` is the old value or `rc == 0`, and the session id is kept. A refused connection changes nothing. |
| MqttCmd.DisconnectKeepsSession | src/mqtt/ConneXMqttCmd.py:115-116 | A disconnection changes no state (so `connected` keeps its value) and publishes nothing. |
| MqttCmd.MachineCommandAlwaysPublishes | src/mqtt/ConneXMqttCmd.py:140-142 | A machine-manager command publishes exactly once, to its topic unchanged, with its payload, whatever the session id. The session is untouched. |
| MqttCmd.HandlerCommandGate | src/mqtt/ConneXMqttCmd.py:145-151 | While the session id is `Undefined`, a handler command publishes nothing and is reported as rejected. Otherwise it publishes exactly once, to `topic + "/" + sessionid`, with the payload unchanged. The session is never modified. |
| MqttCmd.PublishFailureIsReported | src/mqtt/ConneXMqttCmd.py:132-137 | The script logs a publish as accepted when the client's return code is 0 and as failed otherwise. No state changes in either case. |
| MqttCmd.SessionIdIsLatest | src/mqtt/ConneXMqttCmd.py:106-111 | Last writer wins. After any run, the session id is the id of the latest well-formed startup message, or the starting id if there was none. |
| MqttCmd.ConnectedIffAccepted | src/mqtt/ConneXMqttCmd.py:89-102 | After a run, `connected` holds exactly when it held at the start or some connection in the run had `rc == 0`. |
| MqttCmd.LastWriterWins | src/mqtt/ConneXMqttCmd.py:110 | After two startup messages in order, the session id is segment 3 of the second one's topic. |
| MqttCmd.HandlerCommandInRun | src/mqtt/ConneXMqttCmd.py:145-151 | In a run from the initial globals, the handler command at position `i` is handled by the latest startup id before `i`. With none, it is rejected. Otherwise it publishes once to `topic/<id>`, and that topic does not end in `/Undefined`. |
| MqttCmd.HandlerCommandWellFormed | src/mqtt/ConneXMqttCmd.py:147-151 | From a `/`-free session id, a handler command is rejected when the id is `Undefined`. Otherwise it publishes once, to a topic that does not end in `/Undefined`. |
| MqttCmd.NoHandlerPublishToUndefined | src/mqtt/ConneXMqttCmd.py:147-151 | In any run from the initial globals, no handler publish targets a topic ending in `/Undefined`. |
| MqttCmd.ScenarioTopicNamesSession | src/mqtt/ConneXMqttCmd.py:109-110 | `ah700/operations/startup/<id>` names session `<id>`. |
| MqttCmd.PauseScenario | src/mqtt/ConneXMqttCmd.py:186 | The pause hotkey is rejected before a startup message. After `ah700/operations/startup/<id>` it publishes `{}` to `command/ah700/pausejob/dell004/<id>`. |
| Paging.MessageLine | src/graphql/ConneXGraphQL.py:261 | A printed message is exactly as long as its timestamp, topic and payload plus the two separators, each a bar with a blank on either side. It starts with the timestamp and ends with the payload. |
| Paging.MessageLineParses | src/graphql/ConneXGraphQL.py:261 | A printed message whose parts hold no bar character splits at the bars into its timestamp, topic and payload, in that order, with the blanks around the bars. |
| Paging.Report | src/graphql/ConneXGraphQL.py:254-261 | Nothing is printed exactly when there is no response or the first one failed. Otherwise the first line is the first page's total, and every later line is a message. |
| Paging.PrintedAfterIsReport | src/graphql/ConneXGraphQL.py:254-264 | Printing page by page (the total after the first page, then each page's messages) gives `Report` of the responses received, while none failed. |
| Paging.ReportStep | src/graphql/ConneXGraphQL.py:255-261 | One more page adds its messages to the printout, after the total when it is the first page. |
| Paging.FirstStop | src/graphql/ConneXGraphQL.py:263 | The index of the first response that ends the loop (no next page, or a failed query). Every response before it continues the loop. |
| Paging.MessagesQuery | src/graphql/ConneXGraphQL.py:229-264 | There is one request per response, up to and including the first stopping one, and none after. Request `k` is `take 50, skip 50*k`. The printout is the first page's total, once, and then every message of every page received, in order. A failed query ends the run and is reported. |
| Paging.ProgrammingCompleteQuery | src/graphql/ConneXGraphQL.py:223-264 | The same run with the filter "topic contains `programmingcomplete`" on every request. |
| Paging.AllMessagesQuery | src/graphql/ConneXGraphQL.py:267-306 | The same run with "order by timestamp ascending" on every request. |
| Paging.TotalReportedOnce | src/graphql/ConneXGraphQL.py:254-257 | When the first response is a page, its total count is printed exactly once, as the first line. When the first query fails, nothing is printed. |
| Paging.FaithfulServerCompleteness | src/graphql/ConneXGraphQL.py:224-264 | Against a server that pages faithfully through `T` stored messages, the loop makes `max(1, ceil(T/50))` requests. It reports `T` and prints every stored message exactly once, in stored order. |
| Paging.HundredTwentyMessages | src/graphql/ConneXGraphQL.py:224-228 | For 120 stored messages there are three requests (skip 0, 50, 100), with pages of 50, 50 and 20. Only the last page reports no next page. |
| Rows.CsvLine | src/graphql/ConneXGraphQL.py:148-155 | A printed line whose fields hold no comma splits back at commas into exactly its fields. |
| Rows.Str | src/graphql/ConneXGraphQL.py:149 | `str()` of a present string is the string. `str(None)` is `None`. |
| Rows.HandlerRow | src/graphql/ConneXGraphQL.py:57-67 | A handler row has one field per header column, and each field is the handler's value for the column at the same position, for every handler. The id comes first, never holds a comma, and for a non-negative id is all digits and reads back as the id. |
| Rows.HandlerLineParses | src/graphql/ConneXGraphQL.py:57-67 | A handler line has as many fields as the 7-column header: the id as `str()` prints it, then the handler's text fields in header order. |
| Rows.ProgrammerRow | src/graphql/ConneXGraphQL.py:99-114 | A programmer row has 5 fields without a handler and 6 with one. Each field is the programmer's value for the header column at the same position. |
| Rows.ProgrammerLineParses | src/graphql/ConneXGraphQL.py:102-114 | With comma-free fields, a programmer line splits into exactly its 5 or 6 fields. |
| Rows.AdapterRow | src/graphql/ConneXGraphQL.py:144-155 | An adapter row has 3 fields without a programmer and 4 with one. Each field is the adapter's value for the header column at the same position. |
| Rows.AdapterLineParses | src/graphql/ConneXGraphQL.py:147-155 | With comma-free fields, an adapter line splits into exactly its 3 or 4 fields. |
| Rows.AdapterWithoutIdentifier | src/graphql/ConneXGraphQL.py:149 | An adapter without an identifier still gets a row, with `None` in the identifier column. |
| Rows.StatisticsRow | src/graphql/ConneXGraphQL.py:204-220 | A failed query is treated like an answer with no statistics: in both cases the row is the identifier alone. Otherwise the row has the 9 header columns, with the identifier first and then the statistics. |
| Rows.Identified | src/graphql/ConneXGraphQL.py:181-183 | Exactly the adapters without an identifier are dropped: the count of identifiers is the count of adapters minus the number of `None`s. An identifier is kept exactly when some adapter has it. |
| Rows.IdentifiedSingle | src/graphql/ConneXGraphQL.py:183 | A single adapter gives its identifier, or nothing when its identifier is `None`. |
| Rows.IdentifiedAppend | src/graphql/ConneXGraphQL.py:181-183 | The identifiers of two lists of adapters, one after the other, are those of the first list followed by those of the second. With `IdentifiedSingle`, this fixes the order: adapter by adapter, as the loop visits them. |
| Rows.StatisticsRows | src/graphql/ConneXGraphQL.py:180-220 | There is one row per adapter with an identifier, in order; adapters without one produce no row. Each row comes from that adapter's own reply. |
| Rows.FailureIsolation | src/graphql/ConneXGraphQL.py:184-210 | Making one identifier's query fail keeps the number of rows. That identifier's rows become the bare identifier, and every other row is unchanged. |

## Left out

- `src/mqtt/ConneXMqttClient.py` is not part of this model. Its callbacks only log, and its `subscribe`/`on_connect` repeat the command script without any state.
- Logger setup, `uSecsFormatter`, and the exact text of log lines. Effects carry the logged data, not the wording.
- `parseArguments`: a thin argparse wrapper.
- The paho client, `connect`, `loop_start`/`loop_stop`, reconnect behaviour, and `main`'s wait loops: these are network I/O and threading. The return code of each publish is an input carried by the command event.
- `keyboard` hotkeys, `on_quit` and `keep_running`: a UI layer. Hotkey presses are plain command events with the script's topics.
- Concurrency between the network thread and the hotkey threads. Callbacks are processed one at a time.
- MqttCmd.OnHandlerCommand: the script reads the global `sessionid` twice, for the gate at `src/mqtt/ConneXMqttCmd.py:147` and again to build the topic at line 151, with a log call between the two reads. The model reads it once. So `MqttCmd.HandlerCommandGate`, `MqttCmd.HandlerCommandInRun` and `MqttCmd.NoHandlerPublishToUndefined` assume that no message callback runs between those two reads. If a startup message is handled in between, the script can publish to an id other than the one it checked, including `Undefined`.
- MqttCmd.ExtractSessionId: on a startup topic with fewer than four segments, the script raises `IndexError` before assigning `sessionid`. The model reports `MalformedStartup` and keeps the session. What paho does with an exception raised in a callback is not modelled.
- Payload decoding: `on_message` calls `msg.payload.decode()` before it looks at the topic. Payloads are modelled as already-decoded strings, so a payload that fails to decode is not modelled.
- `connex_gql_query`, `gql` and `RequestsHTTPTransport`: foreign calls. Requests are structured `(take, skip, filter)` values, and responses are given data.
- Paging.MessagesQuery: only a server that eventually stops the loop is modelled. The script has no iteration bound and would loop forever against a server that always reports a next page.
- Paging.MessagesQuery: the total-count line is modelled as its count. Its two wordings (`Total "programmingcomplete" messages found:` and `Total messages found:`) are left out.
- Rows: fields that the script concatenates without `str()` are modelled as strings. A `None` there would raise `TypeError` in the script. Statistics values are taken as the text `str()` gives them.
- Paging.Message: the three message fields are modelled as strings. A null `timestamp`, `topic` or `payloadAsString` would raise `TypeError` partway through a page, after the earlier lines of that page were printed.
- Paging.MessageLine: its contract gives the length and the two ends of the printed line. The read-back is stated separately in `Paging.MessageLineParses`, to keep the paging proofs cheap.
- Rows.StatisticsRows: the reply to each per-adapter query is a function of the identifier. Two adapters that share an identifier therefore get the same reply, whereas the script sends one query per adapter. So `Rows.FailureIsolation` fails every adapter with that identifier, not one query.
- Rows.CsvLine: the script does no CSV quoting, so the read-back of a printed line needs comma-free fields.
- `main` of the GraphQL script only selects which query to run.

=== FILE: graphql_paging.dfy ===
/**
 The `messages` paging loops of the GraphQL sample (`programmingcomplete_query`
 and `allmessages_query`).

 Each request asks for a page of at most 50 messages at offset `skip`; the
 offset starts at 0 and grows by 50 after every response, whatever the page
 held. The total count is printed after the first response, every message
 of every page is printed as `timestamp | topic | payload` in the order
 received, and the loop stops after the first page that reports no next
 page. The server is modelled as the sequence of its responses, indexed by
 request number; a response that fails (the query raises) ends the run
 after the lines already printed.
 */
module Paging {
  import opened Text

  /** The page size the loops request, and the amount `skip` grows by per iteration. */
  const PageSize: nat := 50

  datatype Message = Message(topic: string, timestamp: string, payloadAsString: string)

  datatype Page = Page(totalCount: int, items: seq<Message>, hasNextPage: bool)

  /** The server's answer to one request: a page, or a failed query. */
  datatype Response = Fetched(page: Page) | FetchFailed

  /**
   The server-side selection a loop asks for: messages whose topic contains
   `text`, or all messages in ascending timestamp order. It is passed along
   unchanged and only the server interprets it.
   */
  datatype Filter = TopicContains(text: string) | OrderByTimestampAscending

  const ProgrammingComplete: Filter := TopicContains("programmingcomplete")
  const AllMessages: Filter := OrderByTimestampAscending

  datatype Request = Request(take: nat, skip: nat, filter: Filter)

  /** A printed line: the total-count report, or one message. */
  datatype Printed = TotalLine(count: int) | ItemLine(text: string)

  /** The character that separates the three parts of a printed message. */
  const Bar: char := '|'

  /**
   How a message is printed: timestamp, topic and payload, in that order,
   with ` | ` between them and nothing else; `MessageLineParses` reads it back.
   */
  function MessageLine(m: Message): (r: string)
    ensures |r| == |m.timestamp| + |m.topic| + |m.payloadAsString| + 6
    ensures IsPrefix(m.timestamp, r) && EndsWith(r, m.payloadAsString)
  {
    m.timestamp + " | " + m.topic + " | " + m.payloadAsString
  }

  /**
   A printed message whose parts hold no `|` splits at `|` back into its
   timestamp, topic and payload, each padded by the blanks around the bars.
   */
  lemma MessageLineParses(m: Message)
    requires Bar !in m.timestamp && Bar !in m.topic && Bar !in m.payloadAsString
    ensures Split(MessageLine(m), Bar) == [m.timestamp + " ", " " + m.topic + " ", " " + m.payloadAsString]
  {
    var parts := [m.timestamp + " ", " " + m.topic + " ", " " + m.payloadAsString];
    assert parts[1..][1..] == [parts[2]];
    assert Join(parts[1..], Bar) == parts[1] + [Bar] + parts[2];
    assert " | " == " " + [Bar] + " ";
    assert Join(parts, Bar) == MessageLine(m);
    SplitJoin(parts, Bar);
  }

  /** The lines printed for a list of messages, one per message in order. */
  function ItemLines(ms: seq<Message>): (r: seq<Printed>)
    ensures |r| == |ms|
  {
    seq(|ms|, i requires 0 <= i < |ms| => ItemLine(MessageLine(ms[i])))
  }

  /** The loop leaves after this response. */
  predicate Stops(r: Response) {
    r.FetchFailed? || !r.page.hasNextPage
  }

  /** The server eventually ends the loop: some response stops it. */
  predicate Terminates(server: seq<Response>) {
    exists k :: 0 <= k < |server| && Stops(server[k])
  }

  /** The first response at or after `from` that stops the loop, given none before `from` does. */
  function FirstStopFrom(server: seq<Response>, from: nat): (n: nat)
    requires exists k :: from <= k < |server| && Stops(server[k])
    requires forall k :: 0 <= k < from ==> !Stops(server[k])
    ensures from <= n < |server| && Stops(server[n])
    ensures forall k :: 0 <= k < n ==> !Stops(server[k])
    decreases |server| - from
  {
    if Stops(server[from]) then from else FirstStopFrom(server, from + 1)
  }

  /** The index of the response after which the loop leaves. */
  function FirstStop(server: seq<Response>): (n: nat)
    requires Terminates(server)
    ensures n < |server| && Stops(server[n])
    ensures forall k :: 0 <= k < n ==> !Stops(server[k])
  {
    FirstStopFrom(server, 0)
  }

  /** How many pages get printed: the first stopping response is printed unless it failed. */
  function Consumed(server: seq<Response>): nat
    requires Terminates(server)
  {
    if server[FirstStop(server)].FetchFailed? then FirstStop(server) else FirstStop(server) + 1
  }

  /** The message lines of a run of responses, page after page; a failed response prints nothing. */
  function Lines(rs: seq<Response>): seq<Printed>
    decreases |rs|
  {
    if |rs| == 0 then []
    else
      var last := rs[|rs| - 1];
      Lines(rs[..|rs| - 1]) + (if last.Fetched? then ItemLines(last.page.items) else [])
  }

  /** All a run prints for the responses it consumed: the total of the first page, then every message. */
  function Report(rs: seq<Response>): (r: seq<Printed>)
    ensures r == [] <==> |rs| == 0 || rs[0].FetchFailed?
    ensures r != [] ==> r[0] == TotalLine(rs[0].page.totalCount)
    ensures forall i :: 1 <= i < |r| ==> r[i].ItemLine?
  {
    if |rs| == 0 || rs[0].FetchFailed? then []
    else
      LinesHoldOnlyItems(rs);
      [TotalLine(rs[0].page.totalCount)] + Lines(rs)
  }

  /**
   What the loop has printed after `k` responses, page by page: the total
   after the first page, then each page's messages; a failed response prints nothing.
   */
  function PrintedAfter(server: seq<Response>, k: nat): seq<Printed>
    requires k <= |server|
    decreases k
  {
    if k == 0 then []
    else
      var r := server[k - 1];
      if r.FetchFailed? then PrintedAfter(server, k - 1)
      else PrintedAfter(server, k - 1) + (if k == 1 then [TotalLine(r.page.totalCount)] else []) + ItemLines(r.page.items)
  }

  /** Page by page, the loop prints what `Report` says for the responses received, as long as none failed. */
  lemma {:induction false} PrintedAfterIsReport(server: seq<Response>, k: nat)
    requires k <= |server|
    requires forall j :: 0 <= j < k ==> server[j].Fetched?
    ensures PrintedAfter(server, k) == Report(server[..k])
    decreases k
  {
    if k > 0 {
      var last := server[k - 1];
      assert last.Fetched? && server[0].Fetched?;
      PrintedAfterIsReport(server, k - 1);
      ReportStep(server, k - 1);
      assert PrintedAfter(server, k) ==
        PrintedAfter(server, k - 1) + (if k == 1 then [TotalLine(last.page.totalCount)] else []) + ItemLines(last.page.items);
    }
  }

  /** Receiving one more page extends the printout by its messages, after the total when it is the first page. */
  lemma ReportStep(rs: seq<Response>, k: nat)
    requires k < |rs| && rs[0].Fetched? && rs[k].Fetched?
    ensures Report(rs[..k + 1]) ==
      Report(rs[..k]) + (if k == 0 then [TotalLine(rs[0].page.totalCount)] else []) + ItemLines(rs[k].page.items)
  {
    var received, before := rs[..k + 1], rs[..k];
    LinesSnoc(rs, k);
    assert received[0] == rs[0];
    if k == 0 {
      assert before == [];
    } else {
      assert before[0] == rs[0];
    }
  }

  /**
   One run of a `messages` loop against `server`. Request `k` asks for
   `take: 50` at `skip: 50 * k`; the run makes exactly one request per
   response up to and including the first that stops it, and prints the
   total count once and then every message of every page received.
   `failed` reports a query that raised, which ends the run.
   */
  method MessagesQuery(server: seq<Response>, filter: Filter)
    returns (requests: seq<Request>, out: seq<Printed>, failed: bool)
    requires Terminates(server)
    ensures |requests| == FirstStop(server) + 1
    ensures forall k :: 0 <= k < |requests| ==> requests[k] == Request(PageSize, PageSize * k, filter)
    ensures failed <==> server[FirstStop(server)].FetchFailed?
    ensures out == Report(server[..Consumed(server)])
  {
    var stop := FirstStop(server);
    var keepReading := true;
    var skip: nat := 0;
    var k: nat := 0;
    requests, out, failed := [], [], false;
    while keepReading
      invariant k <= stop + 1
      invariant keepReading ==> k <= stop
      invariant !keepReading ==> k == stop + 1 && server[stop].Fetched?
      invariant skip == PageSize * k
      invariant |requests| == k
      invariant forall j :: 0 <= j < k ==> requests[j] == Request(PageSize, PageSize * j, filter)
      invariant out == PrintedAfter(server, k)
      invariant !failed
      decreases stop + 1 - k
    {
      requests := requests + [Request(PageSize, skip, filter)];
      var response := server[k];
      if response.FetchFailed? {
        failed := true;
        break;
      }
      if skip == 0 {
        out := out + [TotalLine(response.page.totalCount)];
      }
      out := out + ItemLines(response.page.items);
      keepReading := response.page.hasNextPage;
      skip := skip + PageSize;
      k := k + 1;
    }
    assert Consumed(server) == k;
    PrintedAfterIsReport(server, k);
  }

  /** `programmingcomplete_query`: the paging loop over messages whose topic contains `programmingcomplete`. */
  method ProgrammingCompleteQuery(server: seq<Response>)
    returns (requests: seq<Request>, out: seq<Printed>, failed: bool)
    requires Terminates(server)
    ensures |requests| == FirstStop(server) + 1
    ensures forall k :: 0 <= k < |requests| ==>
      requests[k] == Request(PageSize, PageSize * k, TopicContains("programmingcomplete"))
    ensures failed <==> server[FirstStop(server)].FetchFailed?
    ensures out == Report(server[..Consumed(server)])
  {
    requests, out, failed := MessagesQuery(server, ProgrammingComplete);
  }

  /** `allmessages_query`: the paging loop over all messages in ascending timestamp order. */
  method AllMessagesQuery(server: seq<Response>)
    returns (requests: seq<Request>, out: seq<Printed>, failed: bool)
    requires Terminates(server)
    ensures |requests| == FirstStop(server) + 1
    ensures forall k :: 0 <= k < |requests| ==>
      requests[k] == Request(PageSize, PageSize * k, OrderByTimestampAscending)
    ensures failed <==> server[FirstStop(server)].FetchFailed?
    ensures out == Report(server[..Consumed(server)])
  {
    requests, out, failed := MessagesQuery(server, AllMessages);
  }

  /** One more response adds its page's lines, or none when it failed. */
  lemma LinesSnoc(rs: seq<Response>, k: nat)
    requires k < |rs|
    ensures Lines(rs[..k + 1]) == Lines(rs[..k]) + (if rs[k].Fetched? then ItemLines(rs[k].page.items) else [])
  {
    var prefix := rs[..k + 1];
    assert prefix[..k] == rs[..k];
    assert prefix[k] == rs[k];
  }

  /** The lines printed for pages hold no total-count report. */
  lemma {:induction false} LinesHoldOnlyItems(rs: seq<Response>)
    ensures forall i :: 0 <= i < |Lines(rs)| ==> Lines(rs)[i].ItemLine?
    decreases |rs|
  {
    if |rs| > 0 {
      LinesHoldOnlyItems(rs[..|rs| - 1]);
    }
  }

  /** How many total-count reports a printout holds. */
  function CountTotals(out: seq<Printed>): nat
    decreases |out|
  {
    if |out| == 0 then 0 else (if out[0].TotalLine? then 1 else 0) + CountTotals(out[1..])
  }

  lemma {:induction false} NoTotalsCounted(out: seq<Printed>)
    requires forall i :: 0 <= i < |out| ==> out[i].ItemLine?
    ensures CountTotals(out) == 0
    decreases |out|
  {
    if |out| > 0 {
      NoTotalsCounted(out[1..]);
    }
  }

  /**
   The total count is reported exactly once, first, and from the first
   response, as soon as that response is a page; nothing is reported when
   the very first query fails.
   */
  lemma TotalReportedOnce(rs: seq<Response>)
    ensures |rs| > 0 && rs[0].Fetched? ==>
      && CountTotals(Report(rs)) == 1
      && Report(rs)[0] == TotalLine(rs[0].page.totalCount)
    ensures |rs| == 0 || rs[0].FetchFailed? ==> Report(rs) == []
  {
    if |rs| > 0 && rs[0].Fetched? {
      LinesHoldOnlyItems(rs);
      NoTotalsCounted(Lines(rs));
      assert Report(rs)[1..] == Lines(rs);
    }
  }

  // ----- A server that pages faithfully through a stored list of messages -----

  /** The number of pages of `PageSize` needed for `total` messages; an empty store still answers one page. */
  function PageCount(total: nat): (n: nat)
    ensures n >= 1
  {
    if total == 0 then 1 else (total + PageSize - 1) / PageSize
  }

  /** The page a faithful server answers to request `k`: the `k`-th slice of 50, and whether more follow. */
  function PageAt(db: seq<Message>, k: nat): Page {
    var lo := if PageSize * k < |db| then PageSize * k else |db|;
    var hi := if PageSize * (k + 1) < |db| then PageSize * (k + 1) else |db|;
    Page(|db|, db[lo..hi], PageSize * (k + 1) < |db|)
  }

  /** The responses of a server holding `db`, one per page. */
  function ServerFor(db: seq<Message>): (server: seq<Response>)
    ensures |server| == PageCount(|db|)
  {
    seq(PageCount(|db|), k requires 0 <= k < PageCount(|db|) => Fetched(PageAt(db, k)))
  }

  /** The lines of a list of messages are those of its parts, one part after the other. */
  lemma ItemLinesAppend(a: seq<Message>, b: seq<Message>)
    ensures ItemLines(a + b) == ItemLines(a) + ItemLines(b)
  {
  }

  /** Only the last page of a faithful server reports no next page. */
  lemma PageCountBounds(total: nat)
    ensures total > 0 ==> PageSize * (PageCount(total) - 1) < total
    ensures PageSize * PageCount(total) >= total
  {
    if total > 0 {
      var n := PageCount(total);
      assert total + PageSize - 1 == PageSize * n + (total + PageSize - 1) % PageSize;
    }
  }

  /** The first `k` pages of a faithful server print the first `50 * k` messages. */
  lemma {:induction false} FaithfulPrefixLines(db: seq<Message>, k: nat)
    requires k <= PageCount(|db|)
    ensures var hi := if PageSize * k < |db| then PageSize * k else |db|;
      Lines(ServerFor(db)[..k]) == ItemLines(db[..hi])
    decreases k
  {
    var server := ServerFor(db);
    if k > 0 {
      FaithfulPrefixLines(db, k - 1);
      LinesSnoc(server, k - 1);
      var lo := if PageSize * (k - 1) < |db| then PageSize * (k - 1) else |db|;
      var hi := if PageSize * k < |db| then PageSize * k else |db|;
      assert server[k - 1] == Fetched(PageAt(db, k - 1));
      assert PageAt(db, k - 1).items == db[lo..hi];
      assert db[..lo] + db[lo..hi] == db[..hi];
      ItemLinesAppend(db[..lo], db[lo..hi]);
    }
  }

  /**
   Completeness against a faithful server holding `db`: the loop makes one
   request per page (one for an empty store), reports `|db|` as the total,
   and prints every stored message exactly once, in stored order. For
   `|db| == 120` that is 3 requests, at `skip` 0, 50 and 100.
   */
  lemma FaithfulServerCompleteness(db: seq<Message>)
    ensures Terminates(ServerFor(db))
    ensures FirstStop(ServerFor(db)) == PageCount(|db|) - 1
    ensures Consumed(ServerFor(db)) == PageCount(|db|)
    ensures Report(ServerFor(db)) == [TotalLine(|db|)] + ItemLines(db)
  {
    var server := ServerFor(db);
    var n := PageCount(|db|);
    PageCountBounds(|db|);
    assert Stops(server[n - 1]);
    assert Terminates(server);
    forall k | 0 <= k < n - 1
      ensures !Stops(server[k])
    {
      assert PageSize * (k + 1) <= PageSize * (n - 1);
    }
    assert server[..n] == server;
    FaithfulPrefixLines(db, n);
    assert db[..|db|] == db;
  }

  /** The example of 120 stored messages: three requests, at `skip` 0, 50 and 100, with pages of 50, 50 and 20. */
  lemma HundredTwentyMessages(db: seq<Message>)
    requires |db| == 120
    ensures Terminates(ServerFor(db))
    ensures FirstStop(ServerFor(db)) == 2
    ensures |ServerFor(db)[0].page.items| == 50
    ensures |ServerFor(db)[1].page.items| == 50
    ensures |ServerFor(db)[2].page.items| == 20
    ensures ServerFor(db)[0].page.hasNextPage && ServerFor(db)[1].page.hasNextPage
    ensures !ServerFor(db)[2].page.hasNextPage
  {
    FaithfulServerCompleteness(db);
  }
}

=== FILE: graphql_rows.dfy ===
/**
 The comma-separated rows the GraphQL sample prints for handlers,
 programmers, adapters and the latest adapter statistics.

 Each query prints a header line and then one line per record, its fields
 joined by commas. A row is modelled as its sequence of fields and the
 printed line as `CsvLine(row)`. Values the script passes through `str()`
 are rendered here: integers by `DecimalString`, a possibly missing string
 by `Str`; the statistics values are taken as the text `str()` gives them.
 */
module Rows {
  import opened Wrappers
  import opened Text

  const Comma: char := ','

  /** The printed line of a row: its fields joined by commas. */
  function CsvLine(fields: seq<string>): (line: string)
    requires |fields| >= 1
    ensures AllCsvSafe(fields) ==> Split(line, Comma) == fields
  {
    if AllCsvSafe(fields) then SplitJoin(fields, Comma); Join(fields, Comma)
    else Join(fields, Comma)
  }

  /** A field that can be read back from a printed line: it holds no comma. */
  predicate CsvSafe(field: string) {
    Comma !in field
  }

  predicate AllCsvSafe(fields: seq<string>) {
    forall i :: 0 <= i < |fields| ==> CsvSafe(fields[i])
  }

  /** Python's `str(x)` for a string that may be `None`. */
  function Str(x: Option<string>): (r: string)
    ensures x.Some? ==> r == x.value
    ensures x.None? ==> r == "None"
  {
    x.GetOr("None")
  }

  // ----- handlers_query -----

  datatype HandlerSystem = HandlerSystem(
    handlerId: int, entityName: string, entityIdentifier: string, handlerType: string,
    ipAddress: string, hostName: string, machineFactory: string)

  const HandlerHeader: seq<string> :=
    ["handler.Id", "handler.Name", "handler.Identifier", "handler.Type",
     "handler.ipAddress", "handler.hostName", "handler.machineFactory"]

  /**
   The columns of the handlers header: `handler.Id`, `handler.Name`, `handler.Identifier`,
   `handler.Type`, `handler.ipAddress`, `handler.hostName`, `handler.machineFactory`.
   */
  datatype HandlerColumn =
    HandlerId | HandlerEntityName | HandlerIdentifier | HandlerType | HandlerIpAddress | HandlerHostName | HandlerFactory

  /** The columns of the handlers header, in the order it prints them. */
  const HandlerColumns: seq<HandlerColumn> :=
    [HandlerId, HandlerEntityName, HandlerIdentifier, HandlerType, HandlerIpAddress, HandlerHostName, HandlerFactory]

  /** What a handler holds under a header column; the id as `str()` prints it. */
  function HandlerValue(h: HandlerSystem, c: HandlerColumn): string {
    match c
    case HandlerId => DecimalString(h.handlerId)
    case HandlerEntityName => h.entityName
    case HandlerIdentifier => h.entityIdentifier
    case HandlerType => h.handlerType
    case HandlerIpAddress => h.ipAddress
    case HandlerHostName => h.hostName
    case HandlerFactory => h.machineFactory
  }

  /**
   A handler row: one field per header column, each the handler's value for
   the column at the same position. The id comes first, as `str()` prints
   it, so it never holds a comma and a non-negative id reads back as itself.
   */
  function HandlerRow(h: HandlerSystem): (r: seq<string>)
    ensures |r| == |HandlerHeader| == |HandlerColumns|
    ensures forall i :: 0 <= i < |r| ==> HandlerValue(h, HandlerColumns[i]) == r[i]
    ensures CsvSafe(r[0])
    ensures h.handlerId >= 0 ==> forall i :: 0 <= i < |r[0]| ==> '0' <= r[0][i] <= '9'
    ensures h.handlerId >= 0 ==> DigitsValue(r[0]) == h.handlerId
  {
    [DecimalString(h.handlerId), h.entityName, h.entityIdentifier, h.handlerType,
     h.ipAddress, h.hostName, h.machineFactory]
  }

  /**
   A handler line has one field per header column and splits back into
   exactly the handler's fields, id first, when the text fields hold no comma.
   */
  lemma HandlerLineParses(h: HandlerSystem)
    requires CsvSafe(h.entityName) && CsvSafe(h.entityIdentifier) && CsvSafe(h.handlerType)
    requires CsvSafe(h.ipAddress) && CsvSafe(h.hostName) && CsvSafe(h.machineFactory)
    ensures var fields := Split(CsvLine(HandlerRow(h)), Comma);
      && |fields| == |HandlerHeader|
      && fields[0] == DecimalString(h.handlerId)
      && fields[1..] == [h.entityName, h.entityIdentifier, h.handlerType, h.ipAddress, h.hostName, h.machineFactory]
  {
    var row := HandlerRow(h);
    assert AllCsvSafe(row);
  }

  // ----- programmers_query -----

  datatype Programmer = Programmer(
    programmerId: int, entityName: string, entityIdentifier: string, programmerType: string,
    ipAddress: string, handlerName: Option<string>)

  /**
   The columns of the programmers header: `programmer.Id`, `programmer.Name`,
   `programmer.Identifier`, `programmer.Type`, `programmer.ipAddress`, `handler.Name`.
   */
  datatype ProgrammerColumn =
    ProgrammerId | ProgrammerName | ProgrammerIdentifier | ProgrammerType | ProgrammerIpAddress | HandlerName

  /** The columns of the programmers header, in the order it prints them. */
  const ProgrammerColumns: seq<ProgrammerColumn> :=
    [ProgrammerId, ProgrammerName, ProgrammerIdentifier, ProgrammerType, ProgrammerIpAddress, HandlerName]

  /** What a programmer holds under a header column; a programmer without handler has no handler name. */
  function ProgrammerValue(p: Programmer, c: ProgrammerColumn): Option<string> {
    match c
    case ProgrammerId => Some(DecimalString(p.programmerId))
    case ProgrammerName => Some(p.entityName)
    case ProgrammerIdentifier => Some(p.entityIdentifier)
    case ProgrammerType => Some(p.programmerType)
    case ProgrammerIpAddress => Some(p.ipAddress)
    case HandlerName => p.handlerName
  }

  /**
   A programmer row: five fields without a handler, six with one, each the
   programmer's value for the header column at the same position.
   */
  function ProgrammerRow(p: Programmer): (r: seq<string>)
    ensures |r| == if p.handlerName.None? then 5 else 6
    ensures forall i :: 0 <= i < |r| ==> ProgrammerValue(p, ProgrammerColumns[i]) == Some(r[i])
  {
    var common := [DecimalString(p.programmerId), p.entityName, p.entityIdentifier, p.programmerType, p.ipAddress];
    match p.handlerName
    case None => common
    case Some(name) => common + [name]
  }

  /** A programmer line splits back into its row when the text fields hold no comma. */
  lemma ProgrammerLineParses(p: Programmer)
    requires CsvSafe(p.entityName) && CsvSafe(p.entityIdentifier) && CsvSafe(p.programmerType)
    requires CsvSafe(p.ipAddress) && (p.handlerName.Some? ==> CsvSafe(p.handlerName.value))
    ensures Split(CsvLine(ProgrammerRow(p)), Comma) == ProgrammerRow(p)
    ensures |Split(CsvLine(ProgrammerRow(p)), Comma)| == if p.handlerName.None? then 5 else 6
  {
    var row := ProgrammerRow(p);
    forall i | 0 <= i < |row|
      ensures CsvSafe(row[i])
    {
      assert ProgrammerValue(p, ProgrammerColumns[i]) == Some(row[i]);
    }
  }

  // ----- adapters_query -----

  datatype Adapter = Adapter(
    adapterKey: int, entityIdentifier: Option<string>, adapterId: string, programmerName: Option<string>)

  /**
   The columns of the adapters header: `adapter.Id`, `adapter.Identifier`,
   `adapter.Type`, `programmer.Name`. The script prints the adapter key under
   `adapter.Id` and the adapter id under `adapter.Type`.
   */
  datatype AdapterColumn = AdapterKey | AdapterIdentifier | AdapterId | ProgrammerOfAdapter

  /** The columns of the adapters header, in the order it prints them. */
  const AdapterColumns: seq<AdapterColumn> := [AdapterKey, AdapterIdentifier, AdapterId, ProgrammerOfAdapter]

  /** What an adapter holds under a header column; a missing identifier prints as `None`. */
  function AdapterValue(a: Adapter, c: AdapterColumn): Option<string> {
    match c
    case AdapterKey => Some(DecimalString(a.adapterKey))
    case AdapterIdentifier => Some(Str(a.entityIdentifier))
    case AdapterId => Some(a.adapterId)
    case ProgrammerOfAdapter => a.programmerName
  }

  /**
   An adapter row: three fields without a programmer, four with one, each
   the adapter's value for the header column at the same position.
   */
  function AdapterRow(a: Adapter): (r: seq<string>)
    ensures |r| == if a.programmerName.None? then 3 else 4
    ensures forall i :: 0 <= i < |r| ==> AdapterValue(a, AdapterColumns[i]) == Some(r[i])
  {
    var common := [DecimalString(a.adapterKey), Str(a.entityIdentifier), a.adapterId];
    match a.programmerName
    case None => common
    case Some(name) => common + [name]
  }

  /** An adapter line splits back into its row when the text fields hold no comma. */
  lemma AdapterLineParses(a: Adapter)
    requires CsvSafe(Str(a.entityIdentifier)) && CsvSafe(a.adapterId)
    requires a.programmerName.Some? ==> CsvSafe(a.programmerName.value)
    ensures Split(CsvLine(AdapterRow(a)), Comma) == AdapterRow(a)
    ensures |Split(CsvLine(AdapterRow(a)), Comma)| == if a.programmerName.None? then 3 else 4
  {
    var row := AdapterRow(a);
    forall i | 0 <= i < |row|
      ensures CsvSafe(row[i])
    {
      assert AdapterValue(a, AdapterColumns[i]) == Some(row[i]);
    }
  }

  /** An adapter with no identifier still gets a row, with `None` in the identifier column. */
  lemma AdapterWithoutIdentifier(a: Adapter)
    requires a.entityIdentifier.None?
    ensures AdapterRow(a)[1] == "None"
  {
    assert AdapterValue(a, AdapterColumns[1]) == Some(AdapterRow(a)[1]);
  }

  // ----- latest_statistics_all_adapters_query -----

  /** The latest statistics of an adapter, each value as `str()` prints it. */
  datatype Statistics = Statistics(
    adapterId: string, cleanCount: string, lifetimeActuationCount: string,
    lifetimeContinuityFailCount: string, lifetimeFailCount: string, lifetimePassCount: string,
    socketIndex: string, adapterState: string)

  /** The answer to one per-adapter statistics query: it raised, or it gave the (possibly null) statistics. */
  datatype StatisticsReply = QueryFailed | Answered(latest: Option<Statistics>)

  const StatisticsHeader: seq<string> :=
    ["adapter.Identifier", "adapter.Type", "cleanCount", "lifetimeActuationCount",
     "lifetimeContinuityFailCount", "lifetimeFailCount", "lifetimePassCount", "socketIndex", "adapterState"]

  function StatisticsFields(st: Statistics): seq<string> {
    [st.adapterId, st.cleanCount, st.lifetimeActuationCount, st.lifetimeContinuityFailCount,
     st.lifetimeFailCount, st.lifetimePassCount, st.socketIndex, st.adapterState]
  }

  /**
   The row of one identified adapter. A failed query is treated as if it had
   answered with no statistics; either way the row is the identifier alone.
   Otherwise it has one field per header column, the identifier first.
   */
  function StatisticsRow(id: string, reply: StatisticsReply): (r: seq<string>)
    ensures |r| >= 1 && r[0] == id
    ensures |r| == 1 <==> reply.QueryFailed? || reply.latest.None?
    ensures |r| != 1 ==> |r| == |StatisticsHeader| && r[1..] == StatisticsFields(reply.latest.value)
  {
    var latest := if reply.QueryFailed? then None else reply.latest;
    match latest
    case None => [id]
    case Some(st) => [id] + StatisticsFields(st)
  }

  /**
   The identifiers of the adapters that have one, in order: every adapter
   without an identifier is dropped, and no other. `IdentifiedAppend` shows
   the order is kept.
   */
  function Identified(adapters: seq<Option<string>>): (ids: seq<string>)
    ensures |ids| + multiset(adapters)[None] == |adapters|
    ensures forall id :: id in ids <==> Some(id) in adapters
    decreases |adapters|
  {
    if |adapters| == 0 then []
    else
      var rest := Identified(adapters[1..]);
      assert adapters == [adapters[0]] + adapters[1..];
      match adapters[0]
      case None => rest
      case Some(id) => [id] + rest
  }

  /** A single adapter gives its identifier, or nothing when it has none. */
  lemma IdentifiedSingle(x: Option<string>)
    ensures Identified([x]) == if x.Some? then [x.value] else []
  {
    assert [x][1..] == [];
  }

  /**
   Filtering keeps the order: the identifiers of two lists of adapters one
   after the other are those of the first list followed by those of the second.
   */
  lemma {:induction false} IdentifiedAppend(a: seq<Option<string>>, b: seq<Option<string>>)
    ensures Identified(a + b) == Identified(a) + Identified(b)
    decreases |a|
  {
    if |a| == 0 {
      assert a + b == b;
    } else {
      assert (a + b)[1..] == a[1..] + b;
      IdentifiedAppend(a[1..], b);
    }
  }

  /**
   The rows of the statistics query: one per adapter that has an
   identifier, in order, adapters without one being skipped; every row is
   built from that adapter's own reply, so a failing query only shortens its
   own row and never stops the later adapters.
   */
  function StatisticsRows(adapters: seq<Option<string>>, fetch: string -> StatisticsReply): (rows: seq<seq<string>>)
    ensures |rows| == |Identified(adapters)|
    ensures forall i :: 0 <= i < |rows| ==>
      rows[i] == StatisticsRow(Identified(adapters)[i], fetch(Identified(adapters)[i]))
    decreases |adapters|
  {
    if |adapters| == 0 then []
    else
      var rest := StatisticsRows(adapters[1..], fetch);
      match adapters[0]
      case None => rest
      case Some(id) => [StatisticsRow(id, fetch(id))] + rest
  }

  /**
   Partial-failure isolation: making the query of one identifier `x` fail
   keeps the number of rows, turns the rows of `x` into the bare identifier,
   and leaves every other row as it was.
   */
  lemma FailureIsolation(adapters: seq<Option<string>>, fetch: string -> StatisticsReply, x: string)
    ensures var failing := (id: string) => if id == x then QueryFailed else fetch(id);
      var rows := StatisticsRows(adapters, fetch);
      var degraded := StatisticsRows(adapters, failing);
      && |degraded| == |rows|
      && forall i :: 0 <= i < |rows| ==>
           degraded[i] == (if Identified(adapters)[i] == x then [x] else rows[i])
  {
  }
}

=== FILE: mqtt_cmd.dfy ===
/**
 The command sample's session tracking and command gating.

 The script keeps two globals, `connected` and `sessionid`, which the
 transport callbacks (`on_connect`, `on_message`, `on_disconnect`) and the
 hotkey callbacks (`on_machine_manager_command`, `on_handler_command`)
 read and write. Here every callback is an `Event`, the globals are an
 immutable `Session` record, and a run is a fold of `Step` over the events,
 recording for each event the effects it has: subscriptions, publishes and
 the informational outcomes the script logs.
 */
module MqttCmd {
  import opened Wrappers
  import opened Text

  /** The placeholder `sessionid` holds until a startup message has been seen. */
  const Undefined: string := "Undefined"

  /** A message whose topic contains this text defines a new session id. */
  const StartupMarker: string := "startup"

  /** The topic filter subscribed to after every successful connection: all topics. */
  const AllTopics: string := "#"

  /** Topic segments are separated by this character. */
  const TopicSeparator: char := '/'

  datatype Session = Session(connected: bool, sessionId: string)

  /** The globals as the script initialises them. */
  const Initial: Session := Session(false, Undefined)

  /** One callback invocation; a command carries the return code its publish will get. */
  datatype Event =
    | Connect(rc: int)
    | Disconnect(rc: int)
    | Message(topic: string, payload: string)
    | MachineCommand(topic: string, payload: string, publishRc: int)
    | HandlerCommand(topic: string, payload: string, publishRc: int)

  datatype Effect =
    | Subscribed(filter: string)
    | ConnectRefused(rc: int)
    | Disconnected(rc: int)
    | Received(topic: string, payload: string)
    | SessionUpdated(sessionId: string)
    | MalformedStartup(topic: string)
    | Published(topic: string, payload: string, accepted: bool)
    | HandlerRejected

  datatype Outcome = Outcome(session: Session, effects: seq<Effect>)

  /** What a message topic says about the session. */
  datatype Extraction = NotStartup | ShortTopic | SessionId(id: string)

  /**
   Reads the session id out of a message topic: a topic containing the
   startup marker anywhere (a substring test, not a segment match) names
   the session in its segment at index 3.

   The script indexes that segment without a bounds check, so a startup
   topic with fewer than four segments raises before `sessionid` is
   assigned. This model does not forbid such topics; it reports them as
   `ShortTopic`, and `OnMessage` then leaves the session as it was.
   */
  function ExtractSessionId(topic: string): (x: Extraction)
    ensures x.NotStartup? <==> !exists i :: OccursAt(topic, StartupMarker, i)
    ensures x.SessionId? ==> TopicSeparator !in x.id
  {
    ContainsIffOccurs(topic, StartupMarker);
    if !Contains(topic, StartupMarker) then NotStartup
    else
      var segments := Split(topic, TopicSeparator);
      if |segments| < 4 then ShortTopic else SessionId(segments[3])
  }

  /**
   The broker's answer to a connection attempt: an accepted one subscribes to
   every topic and sets `connected`, a refused one is only logged.
   */
  function OnConnect(s: Session, rc: int): (o: Outcome)
    ensures o.session.sessionId == s.sessionId
    ensures o.session.connected == (s.connected || rc == 0)
    ensures Subscribed(AllTopics) in o.effects <==> rc == 0
    ensures rc != 0 ==> o.session == s
  {
    if rc == 0 then Outcome(s.(connected := true), [Subscribed(AllTopics)])
    else Outcome(s, [ConnectRefused(rc)])
  }

  /** An inbound message: always logged, and a startup topic updates the session id. */
  function OnMessage(s: Session, topic: string, payload: string): (o: Outcome)
    ensures |o.effects| >= 1 && o.effects[0] == Received(topic, payload)
    ensures o.session.connected == s.connected
    ensures ExtractSessionId(topic).SessionId? ==> o.session.sessionId == Split(topic, TopicSeparator)[3]
    ensures !ExtractSessionId(topic).SessionId? ==> o.session == s
  {
    var logged := [Received(topic, payload)];
    match ExtractSessionId(topic)
    case NotStartup => Outcome(s, logged)
    case ShortTopic => Outcome(s, logged + [MalformedStartup(topic)])
    case SessionId(id) => Outcome(s.(sessionId := id), logged + [SessionUpdated(id)])
  }

  /**
   One publish: the message goes to `topic` with `payload` unchanged, and the
   return code only decides whether the attempt is logged as accepted; it never raises.
   */
  function Publish(topic: string, payload: string, rc: int): (e: Effect)
    ensures e.Published? && e.topic == topic && e.payload == payload
    ensures e.accepted <==> rc == 0
  {
    Published(topic, payload, rc == 0)
  }

  /** A handler command is sent only once a session id is known, to the topic scoped by it. */
  function OnHandlerCommand(s: Session, topic: string, payload: string, rc: int): (o: Outcome)
    ensures o.session == s
    ensures o.effects == [HandlerRejected] <==> s.sessionId == Undefined
    ensures s.sessionId != Undefined ==>
      o.effects == [Published(topic + "/" + s.sessionId, payload, rc == 0)]
  {
    if s.sessionId == Undefined then Outcome(s, [HandlerRejected])
    else Outcome(s, [Publish(topic + [TopicSeparator] + s.sessionId, payload, rc)])
  }

  /**
   One callback. Only a message can change the session id, and only a
   connection can change `connected`; the id stays a single topic segment.
   */
  function Step(s: Session, e: Event): (o: Outcome)
    ensures !e.Message? ==> o.session.sessionId == s.sessionId
    ensures !e.Connect? ==> o.session.connected == s.connected
    ensures WellFormed(s) ==> WellFormed(o.session)
    ensures |o.effects| >= 1
  {
    match e
    case Connect(rc) => OnConnect(s, rc)
    case Disconnect(rc) => Outcome(s, [Disconnected(rc)])
    case Message(topic, payload) => OnMessage(s, topic, payload)
    case MachineCommand(topic, payload, rc) => Outcome(s, [Publish(topic, payload, rc)])
    case HandlerCommand(topic, payload, rc) => OnHandlerCommand(s, topic, payload, rc)
  }

  /** The session after a run, and the effects of each event in order. */
  datatype Trace = Trace(session: Session, effects: seq<seq<Effect>>)

  /**
   A run of callbacks from `s`: one list of effects per event, and the
   session id stays a single topic segment throughout.
   */
  function Run(s: Session, events: seq<Event>): (t: Trace)
    ensures |t.effects| == |events|
    ensures WellFormed(s) ==> WellFormed(t.session)
    ensures (forall i :: 0 <= i < |events| ==> !events[i].Message?) ==> t.session.sessionId == s.sessionId
    decreases |events|
  {
    if |events| == 0 then Trace(s, [])
    else
      var o := Step(s, events[0]);
      var rest := Run(o.session, events[1..]);
      Trace(rest.session, [o.effects] + rest.effects)
  }

  /** The topics a list of effects publishes to, in order. */
  function PublishedTopics(effects: seq<Effect>): seq<string>
    decreases |effects|
  {
    if |effects| == 0 then []
    else (if effects[0].Published? then [effects[0].topic] else []) + PublishedTopics(effects[1..])
  }

  /** The id of the most recent well-formed startup message among `events`, if any. */
  function LatestSessionId(events: seq<Event>): Option<string>
    decreases |events|
  {
    if |events| == 0 then None
    else
      var last := events[|events| - 1];
      if last.Message? && ExtractSessionId(last.topic).SessionId? then
        Some(ExtractSessionId(last.topic).id)
      else LatestSessionId(events[..|events| - 1])
  }

  /** Some event of `events` is an accepted connection. */
  predicate SomeAcceptedConnect(events: seq<Event>) {
    exists i :: 0 <= i < |events| && events[i] == Connect(0)
  }

  /** The session id never holds a topic separator, so it is always one whole topic segment. */
  predicate WellFormed(s: Session) {
    TopicSeparator !in s.sessionId
  }

  // ----- Properties of single callbacks -----

  /**
   A message with the startup marker somewhere in its topic and at least four
   segments sets the session id to segment 3; a message without the marker,
   or with too few segments, leaves the whole session unchanged. Every
   message is logged first.
   */
  lemma MessageUpdatesSession(s: Session, topic: string, payload: string)
    ensures var o := OnMessage(s, topic, payload);
      && o.effects[0] == Received(topic, payload)
      && o.session.connected == s.connected
      && ((exists i :: OccursAt(topic, StartupMarker, i)) && |Split(topic, TopicSeparator)| >= 4
          ==> o.session.sessionId == Split(topic, TopicSeparator)[3])
      && (!(exists i :: OccursAt(topic, StartupMarker, i)) ==> o.session == s)
      && (|Split(topic, TopicSeparator)| < 4 ==> o.session == s)
  {
  }

  /**
   An accepted connection subscribes to every topic and marks the session
   connected; a refused one subscribes to nothing and changes nothing.
   The session id survives either way.
   */
  lemma ConnectSubscribesOnlyOnSuccess(s: Session, rc: int)
    ensures var o := Step(s, Connect(rc));
      && (Subscribed(AllTopics) in o.effects <==> rc == 0)
      && (forall f :: Subscribed(f) in o.effects ==> f == AllTopics)
      && o.session.connected == (s.connected || rc == 0)
      && o.session.sessionId == s.sessionId
      && (rc != 0 ==> o.session == s)
  {
  }

  /** A disconnection is only logged: `connected` keeps its value and the session id survives. */
  lemma DisconnectKeepsSession(s: Session, rc: int)
    ensures Step(s, Disconnect(rc)).session == s
    ensures PublishedTopics(Step(s, Disconnect(rc)).effects) == []
  {
  }

  /**
   A machine-manager command publishes exactly once, to its topic unchanged and
   with its payload, whatever the session id is, and leaves the session alone.
   */
  lemma MachineCommandAlwaysPublishes(s: Session, topic: string, payload: string, rc: int)
    ensures var o := Step(s, MachineCommand(topic, payload, rc));
      && PublishedTopics(o.effects) == [topic]
      && o.effects == [Published(topic, payload, rc == 0)]
      && o.session == s
  {
  }

  /**
   A handler command before any session id is known publishes nothing; once
   one is known it publishes exactly once, to the command topic extended by
   the session id as a last segment, with its payload unchanged. The session
   is never modified.
   */
  lemma HandlerCommandGate(s: Session, topic: string, payload: string, rc: int)
    ensures var o := Step(s, HandlerCommand(topic, payload, rc));
      && o.session == s
      && (s.sessionId == Undefined ==> PublishedTopics(o.effects) == [] && o.effects == [HandlerRejected])
      && (s.sessionId != Undefined ==>
            && PublishedTopics(o.effects) == [topic + "/" + s.sessionId]
            && o.effects == [Published(topic + "/" + s.sessionId, payload, rc == 0)])
  {
  }

  /**
   A publish the client refuses to queue (non-zero return code) is reported
   as not accepted, never aborts the step, and changes no state; the same
   holds for an accepted one.
   */
  lemma PublishFailureIsReported(s: Session, e: Event)
    requires e.MachineCommand? || e.HandlerCommand?
    ensures var o := Step(s, e);
      && o.session == s
      && (forall k :: 0 <= k < |o.effects| && o.effects[k].Published? ==>
            o.effects[k].accepted == (e.publishRc == 0))
  {
  }

  // ----- Properties of runs -----

  /** Running `events` and then `e` is running `e` from where `events` left off. */
  lemma {:induction false} RunSnoc(s: Session, events: seq<Event>, e: Event)
    ensures var t := Run(s, events);
      var o := Step(t.session, e);
      Run(s, events + [e]) == Trace(o.session, t.effects + [o.effects])
    decreases |events|
  {
    if |events| > 0 {
      var s1 := Step(s, events[0]).session;
      assert (events + [e])[1..] == events[1..] + [e];
      RunSnoc(s1, events[1..], e);
    }
  }

  /** The effects of event `i` are those of stepping it from the session the first `i` events leave. */
  lemma {:induction false} RunEffectsAt(s: Session, events: seq<Event>, i: nat)
    requires i < |events|
    ensures Run(s, events).effects[i] == Step(Run(s, events[..i]).session, events[i]).effects
    decreases i
  {
    if i > 0 {
      var s1 := Step(s, events[0]).session;
      RunEffectsAt(s1, events[1..], i - 1);
      assert events[1..][..i - 1] == events[..i][1..];
      assert events[1..][i - 1] == events[i];
    }
  }

  /**
   Last writer wins: after any run the session id is the one named by the
   latest well-formed startup message, or the starting id if there was none.
   Messages without the marker, short startup topics, connections and
   commands never change it.
   */
  lemma {:induction false} SessionIdIsLatest(s: Session, events: seq<Event>)
    ensures Run(s, events).session.sessionId == LatestSessionId(events).GetOr(s.sessionId)
    decreases |events|
  {
    if |events| > 0 {
      var init := events[..|events| - 1];
      var last := events[|events| - 1];
      assert init + [last] == events;
      RunSnoc(s, init, last);
      SessionIdIsLatest(s, init);
    }
  }

  /**
   The session is connected after a run exactly when it started connected or
   some connection in the run was accepted: nothing ever resets `connected`.
   */
  lemma {:induction false} ConnectedIffAccepted(s: Session, events: seq<Event>)
    ensures Run(s, events).session.connected <==> s.connected || SomeAcceptedConnect(events)
    decreases |events|
  {
    if |events| > 0 {
      var init := events[..|events| - 1];
      var last := events[|events| - 1];
      assert init + [last] == events;
      RunSnoc(s, init, last);
      ConnectedIffAccepted(s, init);
      if SomeAcceptedConnect(events) && !SomeAcceptedConnect(init) {
        var i :| 0 <= i < |events| && events[i] == Connect(0);
        assert i == |events| - 1;
      }
      if SomeAcceptedConnect(init) {
        var i :| 0 <= i < |init| && init[i] == Connect(0);
        assert events[i] == Connect(0);
      }
    }
  }

  /** Two startup messages in a row: the second one's id wins. */
  lemma LastWriterWins(s: Session, t1: string, p1: string, t2: string, p2: string)
    requires ExtractSessionId(t1).SessionId? && ExtractSessionId(t2).SessionId?
    ensures Run(s, [Message(t1, p1), Message(t2, p2)]).session.sessionId == Split(t2, TopicSeparator)[3]
  {
    SessionIdIsLatest(s, [Message(t1, p1), Message(t2, p2)]);
  }

  /** The placeholder is a single topic segment. */
  lemma InitialWellFormed()
    ensures WellFormed(Initial)
  {
    assert Undefined == ['U'] + "ndefined";
  }

  /** From a well-formed session, a handler command that publishes never targets a topic ending in `/Undefined`. */
  lemma HandlerCommandWellFormed(s: Session, topic: string, payload: string, rc: int)
    requires WellFormed(s)
    ensures var o := Step(s, HandlerCommand(topic, payload, rc));
      if s.sessionId == Undefined then o.effects == [HandlerRejected]
      else
        && o.effects == [Published(topic + "/" + s.sessionId, payload, rc == 0)]
        && !EndsWith(o.effects[0].topic, "/" + Undefined)
  {
    EndsWithSegment(topic, s.sessionId, Undefined, TopicSeparator);
  }

  /**
   The command gate over a whole run from the initial globals: the handler
   command at position `i` is rejected when no startup message before it
   defined a session (or the latest one named the placeholder itself), and
   otherwise publishes once, to its topic scoped by the latest session id,
   which is never the placeholder.
   */
  lemma HandlerCommandInRun(events: seq<Event>, i: nat)
    requires i < |events| && events[i].HandlerCommand?
    ensures var latest := LatestSessionId(events[..i]);
      var out := Run(Initial, events).effects[i];
      var e := events[i];
      if latest.None? || latest.value == Undefined then out == [HandlerRejected]
      else
        && out == [Published(e.topic + "/" + latest.value, e.payload, e.publishRc == 0)]
        && !EndsWith(out[0].topic, "/" + Undefined)
  {
    var e := events[i];
    var latest := LatestSessionId(events[..i]);
    var before := Run(Initial, events[..i]).session;
    RunEffectsAt(Initial, events, i);
    assert Run(Initial, events).effects[i] == Step(before, e).effects;
    SessionIdIsLatest(Initial, events[..i]);
    assert before.sessionId == Undefined <==> latest.None? || latest.value == Undefined;
    InitialWellFormed();
    assert WellFormed(before);
    HandlerCommandWellFormed(before, e.topic, e.payload, e.publishRc);
  }

  /** The safety property of the gate: no handler publish ever targets a topic ending in `/Undefined`. */
  lemma NoHandlerPublishToUndefined(events: seq<Event>)
    ensures var t := Run(Initial, events);
      forall i, k ::
        (0 <= i < |events| && events[i].HandlerCommand? && 0 <= k < |t.effects[i]| && t.effects[i][k].Published?)
        ==> !EndsWith(t.effects[i][k].topic, "/" + Undefined)
  {
    var t := Run(Initial, events);
    forall i, k | 0 <= i < |events| && events[i].HandlerCommand? && 0 <= k < |t.effects[i]|
      && t.effects[i][k].Published?
      ensures !EndsWith(t.effects[i][k].topic, "/" + Undefined)
    {
      HandlerCommandInRun(events, i);
    }
  }

  /** The topic the script's pause hotkey publishes a handler command to, before scoping. */
  const PauseTopic: string := "command/ah700/pausejob/dell004"

  /** The startup topic of the pause scenario, for a session id `id`. */
  function ScenarioTopic(id: string): string {
    "ah700" + "/" + ("operations" + "/" + (StartupMarker + "/" + id))
  }

  /** The scenario's startup topic names the session `id` it ends with. */
  lemma ScenarioTopicNamesSession(id: string)
    requires TopicSeparator !in id
    ensures ExtractSessionId(ScenarioTopic(id)) == SessionId(id)
  {
    var topic := ScenarioTopic(id);
    SplitFour("ah700", "operations", StartupMarker, id, TopicSeparator);
    assert topic[17..24] == StartupMarker;
    assert OccursAt(topic, StartupMarker, 17);
  }

  /**
   The concrete scenario of the pause hotkey: pressed before the startup
   message it is rejected; after `ah700/operations/startup/<id>` arrives
   (`<id>` being, say, `SESSION-42`) it publishes to the pause topic scoped
   by `<id>`.
   */
  lemma PauseScenario(id: string)
    requires TopicSeparator !in id && id != Undefined
    ensures var pause := HandlerCommand(PauseTopic, "{}", 0);
      var t := Run(Initial, [pause, Message(ScenarioTopic(id), "{}"), pause]);
      && t.effects[0] == [HandlerRejected]
      && t.effects[2] == [Published(PauseTopic + "/" + id, "{}", true)]
      && t.session.sessionId == id
  {
    var startup := ScenarioTopic(id);
    ScenarioTopicNamesSession(id);
    var pause := HandlerCommand(PauseTopic, "{}", 0);
    var session := Session(false, id);
    var published := [Published(PauseTopic + "/" + id, "{}", true)];
    assert Step(session, pause) == Outcome(session, published);
    assert Run(session, []) == Trace(session, []);
    var t2 := Run(session, [pause]);
    assert [pause][1..] == [];
    assert t2 == Trace(session, [published]);
    var t1 := Run(Initial, [Message(startup, "{}"), pause]);
    assert [Message(startup, "{}"), pause][1..] == [pause];
    assert Step(Initial, Message(startup, "{}")) == Outcome(session, [Received(startup, "{}"), SessionUpdated(id)]);
    assert t1 == Trace(session, [[Received(startup, "{}"), SessionUpdated(id)], published]);
    var events := [pause, Message(startup, "{}"), pause];
    assert events[1..] == [Message(startup, "{}"), pause];
    assert Run(Initial, events) == Trace(session, [[HandlerRejected]] + t1.effects);
  }
}

=== FILE: text.dfy ===
/**
 String operations the two scripts rely on, with Python's semantics:
 the substring test `p in s`, `s.split(sep)` for a one-character separator,
 the `a + sep + b + ...` joins that build topics and CSV rows, and `str(n)`
 for integers.
 */
module Text {

  /** `p` is a prefix of `s`. */
  predicate IsPrefix(p: string, s: string) {
    |p| <= |s| && s[..|p|] == p
  }

  /** `s` ends with `suffix`. */
  predicate EndsWith(s: string, suffix: string) {
    |suffix| <= |s| && s[|s| - |suffix|..] == suffix
  }

  /** Python's `p in s` on strings: a test for a contiguous substring anywhere in `s`. */
  predicate Contains(s: string, p: string)
    decreases |s|
  {
    IsPrefix(p, s) || (|s| > 0 && Contains(s[1..], p))
  }

  /** `p` occurs in `s` starting at index `i`. */
  ghost predicate OccursAt(s: string, p: string, i: int) {
    0 <= i && i + |p| <= |s| && s[i..i + |p|] == p
  }

  /** The scanning test agrees with the textbook definition of a substring. */
  lemma {:induction false} ContainsIffOccurs(s: string, p: string)
    ensures Contains(s, p) <==> exists i :: OccursAt(s, p, i)
    decreases |s|
  {
    if IsPrefix(p, s) {
      assert OccursAt(s, p, 0);
    } else if |s| > 0 {
      ContainsIffOccurs(s[1..], p);
      if Contains(s[1..], p) {
        var i :| OccursAt(s[1..], p, i);
        assert s[1..][i..i + |p|] == s[i + 1..i + 1 + |p|];
        assert OccursAt(s, p, i + 1);
      }
      if exists i :: OccursAt(s, p, i) {
        var i :| OccursAt(s, p, i);
        assert i != 0;
        assert s[1..][i - 1..i - 1 + |p|] == s[i..i + |p|];
        assert OccursAt(s[1..], p, i - 1);
      }
    }
  }

  /** `parts` with `sep` between each adjacent pair, as Python's `sep.join(parts)`. */
  function Join(parts: seq<string>, sep: char): string
    requires |parts| >= 1
    decreases |parts|
  {
    if |parts| == 1 then parts[0] else parts[0] + [sep] + Join(parts[1..], sep)
  }

  /**
   Python's `s.split(sep)`: every occurrence of `sep` ends a segment, so
   `n` separators give `n + 1` segments, some of which may be empty.
   */
  function Split(s: string, sep: char): (r: seq<string>)
    ensures |r| >= 1
    ensures forall i :: 0 <= i < |r| ==> sep !in r[i]
    ensures Join(r, sep) == s
    decreases |s|
  {
    if |s| == 0 then [""]
    else
      var rest := Split(s[1..], sep);
      if s[0] == sep then
        assert [sep] + s[1..] == s;
        [""] + rest
      else
        var r := [[s[0]] + rest[0]] + rest[1..];
        assert r[1..] == rest[1..];
        assert [s[0]] + s[1..] == s;
        r
  }

  /** A string without the separator is a single segment. */
  lemma {:induction false} SplitNoSep(a: string, sep: char)
    requires sep !in a
    ensures Split(a, sep) == [a]
    decreases |a|
  {
    if |a| > 0 {
      SplitNoSep(a[1..], sep);
      assert [a[0]] + a[1..] == a;
    }
  }

  /** Splitting `a + sep + b` yields `a` as the first segment when `a` holds no separator. */
  lemma {:induction false} SplitCons(a: string, b: string, sep: char)
    requires sep !in a
    ensures Split(a + [sep] + b, sep) == [a] + Split(b, sep)
    decreases |a|
  {
    var s := a + [sep] + b;
    if |a| == 0 {
      assert s[1..] == b;
    } else {
      assert s[1..] == a[1..] + [sep] + b;
      SplitCons(a[1..], b, sep);
      assert [a[0]] + a[1..] == a;
    }
  }

  /** Splitting `a + sep + b` yields `b` as the last segment when `b` holds no separator. */
  lemma {:induction false} SplitSnoc(a: string, b: string, sep: char)
    requires sep !in b
    ensures Split(a + [sep] + b, sep) == Split(a, sep) + [b]
    decreases |a|
  {
    var s := a + [sep] + b;
    if |a| == 0 {
      assert s == [sep] + b;
      assert s[1..] == b;
      SplitNoSep(b, sep);
    } else {
      assert s[1..] == a[1..] + [sep] + b;
      SplitSnoc(a[1..], b, sep);
      var rest := Split(a[1..], sep);
      assert (rest + [b])[0] == rest[0];
      assert (rest + [b])[1..] == rest[1..] + [b];
    }
  }

  /** Joining segments that hold no separator and splitting again gives them back. */
  lemma {:induction false} SplitJoin(parts: seq<string>, sep: char)
    requires |parts| >= 1
    requires forall i :: 0 <= i < |parts| ==> sep !in parts[i]
    ensures Split(Join(parts, sep), sep) == parts
    decreases |parts|
  {
    if |parts| == 1 {
      SplitNoSep(parts[0], sep);
    } else {
      SplitJoin(parts[1..], sep);
      SplitCons(parts[0], Join(parts[1..], sep), sep);
      assert [parts[0]] + parts[1..] == parts;
    }
  }

  /** A topic of four separator-free segments splits back into exactly those segments. */
  lemma SplitFour(a: string, b: string, c: string, d: string, sep: char)
    requires sep !in a && sep !in b && sep !in c && sep !in d
    ensures Split(a + [sep] + (b + [sep] + (c + [sep] + d)), sep) == [a, b, c, d]
  {
    var cd := c + [sep] + d;
    var bcd := b + [sep] + cd;
    SplitNoSep(d, sep);
    SplitCons(c, d, sep);
    assert Split(cd, sep) == [c, d];
    SplitCons(b, cd, sep);
    assert Split(bcd, sep) == [b, c, d];
    SplitCons(a, bcd, sep);
  }

  /**
   A string built as `t + sep + last` ends with `sep + x` exactly when its
   last segment is `x`, provided neither `last` nor `x` holds the separator.
   */
  lemma EndsWithSegment(t: string, last: string, x: string, sep: char)
    requires sep !in last && sep !in x
    ensures EndsWith(t + [sep] + last, [sep] + x) <==> last == x
  {
    var w := t + [sep] + last;
    SplitSnoc(t, last, sep);
    if EndsWith(w, [sep] + x) {
      var u := w[..|w| - |x| - 1];
      assert w == u + [sep] + x;
      SplitSnoc(u, x, sep);
      assert Split(w, sep)[|Split(w, sep)| - 1] == last;
    }
    if last == x {
      assert w[|w| - |x| - 1..] == [sep] + x;
    }
  }

  /** The character for a decimal digit. */
  function DigitChar(d: nat): char
    requires d < 10
  {
    "0123456789"[d]
  }

  /** Python's `str(n)` for a non-negative integer: its decimal digits, most significant first. */
  function NatDigits(n: nat): (r: string)
    ensures |r| >= 1
    ensures forall i :: 0 <= i < |r| ==> '0' <= r[i] <= '9'
    decreases n
  {
    if n < 10 then [DigitChar(n)] else NatDigits(n / 10) + [DigitChar(n % 10)]
  }

  /**
   Python's `str(n)` for any integer: the decimal digits of a non-negative
   number, or a minus sign followed by the digits of its magnitude.
   */
  function DecimalString(n: int): (r: string)
    ensures |r| >= 1
    ensures forall i :: 0 <= i < |r| ==> r[i] == '-' || '0' <= r[i] <= '9'
    ensures n >= 0 ==> (forall i :: 0 <= i < |r| ==> '0' <= r[i] <= '9') && DigitsValue(r) == n
    ensures n < 0 ==>
      && |r| >= 2 && r[0] == '-'
      && (forall i :: 1 <= i < |r| ==> '0' <= r[i] <= '9')
      && DigitsValue(r[1..]) == -n
  {
    if n < 0 then
      NatDigitsRoundTrip(-n);
      var r := "-" + NatDigits(-n);
      assert r[1..] == NatDigits(-n);
      r
    else
      NatDigitsRoundTrip(n);
      NatDigits(n)
  }

  /** The value of a string of decimal digits. */
  function DigitsValue(s: string): nat
    requires forall i :: 0 <= i < |s| ==> '0' <= s[i] <= '9'
    decreases |s|
  {
    if |s| == 0 then 0
    else DigitsValue(s[..|s| - 1]) * 10 + ((s[|s| - 1] as int) - ('0' as int))
  }

  /** Reading back the digits `str(n)` prints gives `n`. */
  lemma {:induction false} NatDigitsRoundTrip(n: nat)
    ensures DigitsValue(NatDigits(n)) == n
    decreases n
  {
    if n >= 10 {
      NatDigitsRoundTrip(n / 10);
      var r := NatDigits(n);
      assert r[..|r| - 1] == NatDigits(n / 10);
    }
  }
}

=== FILE: wrappers.dfy ===
/** Optional values: Python's `None` next to a present value. */
module Wrappers {

  datatype Option<+T> = None | Some(value: T) {

    /** The present value, or `default` when there is none. */
    function GetOr(default: T): T {
      match this
      case Some(v) => v
      case None => default
    }
  }
}
